=== FILE: README.md ===
# Marketplace backend: purchase, exact-match search and listing maintenance

This project models the backend core of a command-line fashion marketplace
(a clone of an online clothing shop). Users search the product catalog and
buy products. Sellers update and delete their own listings. A relational
store keeps accounts, listings, a search audit trail and a buy log.

The store is an immutable `Catalog.Store`. It has one map per keyed table
(users, sellers, products) and one sequence per append-only log (searchlog,
searchresult, buylog). Money is kept in hundredths, so the DECIMAL(10,2)
columns are exact integers. Every backend operation is a pure function that
returns `Success(newStore)` or `Failure(error)`. A failure carries no store,
so a failed call leaves the store as it was. That is how the model states
ROLLBACK and "no change on failure".

The model also keeps the limits the SQL engine enforces on the columns:
DECIMAL(10,2) for balances and prices, INT for stock and quantities, and
VARCHAR widths for names, image links, categories and search queries. A
string longer than its VARCHAR column is refused, unless everything past
the width is blanks; then it is cut to the width (`Catalog.StoreVarchar`,
as PostgreSQL specifies in section 8.3 of its manual). The model also
keeps the REFERENCES constraints. `Catalog.Valid` collects all of
these, and every operation is proved to preserve it.

Modules:

- `Catalog`: entities, column bounds, `Valid`, and the error taxonomy.
  The errors are `NotFound`, `InsufficientStock`, `InsufficientFunds`,
  `InvalidInput`, and `DbError` for a fault raised by the engine.
- `Ledger`: the total money held in all user and seller accounts.
- `SqlLike`: the LIKE operator that the name search uses.
- `Search`: `search_sex`, `search_category` and `search_name`, as one
  `Search` function over a `Criterion` (`BySex`, `ByCategory`, `ByName`).
- `Purchase`: the purchase transaction as written (`Purchase`), and a
  corrected version that validates the quantity (`PurchaseChecked`).
- `Accounts`: `charge_account` and the bound the My Page screen applies
  before calling it.
- `Inventory`: the allow-list of updatable product fields,
  `update_product` and `delete_product`.
- `Session`: a sequence of calls as the front end makes them, with the
  stock ledger and money conservation over runs of purchases. The
  front end sends the typed quantity to the purchase unchecked, and so
  does `Session.Step`. Runs of purchases are modelled both as written and
  through `PurchaseChecked`.

Behaviour of the code that the model reproduces, including what a reader
might not expect:

- The purchase never checks that the quantity is positive. See Findings.
- The `pass` statements right after the two raises in the purchase are
  dead code and have no counterpart in the model.
- The searches return every match. Only the first `top_k` matches are
  logged, using Python slicing, so a negative `top_k` leaves out that many
  matches from the end. The search screen cuts the returned list to
  `top_k` itself (main.py:605).
- The name search is a LIKE match, not a plain substring test. For a word
  without `%`, `_` or `\` the two agree (`Search.NameSearchIsSubstring`).
  With those characters, the word acts as a pattern: "a_c" finds "abc"
  (`SqlLike.UnderscoreIsWildcard`).
- No CHECK constraint keeps balances or stock non-negative, and an update
  may set a negative stock. So `Valid` only requires that values fit their
  columns. A successful purchase still never leaves the bought product's
  stock or the buyer's balance negative.
- Deleting a product that a buy-log or search-result row refers to fails
  with a foreign-key fault. The product tables declare no ON DELETE
  action.
- `charge_account` for an unknown user updates no row. That is not an
  error, so the call succeeds and changes nothing.

The order in which the SQL engine returns product rows is left
unspecified. The searches take it as a parameter `scan`, which must list
every product exactly once (`Search.Enumerates`).

## Model

| member | source | states |
|---|---|---|
| `Purchase.PurchaseNotFoundIff` | main.py:325-333 | The purchase raises NotFound exactly when the user or the product does not exist. |
| `Purchase.PurchaseStockCheckedFirst` | main.py:335-338 | InsufficientStock is raised exactly when both rows exist and stock < quantity, even when the funds are also short. |
| `Purchase.PurchaseFundsIff` | main.py:340-343 | InsufficientFunds is raised exactly when the stock suffices and the account is below price × quantity. |
| `Purchase.PurchaseBookkeeping` | main.py:345-357 | On success both checks had passed. The buyer pays price × quantity, the seller gets the same amount, stock drops by the quantity, and exactly one buy-log row (user, product, quantity) is appended. Nothing else changes. |
| `Purchase.PurchaseConservesMoney` | main.py:348-349 | In a valid store, a successful purchase leaves the total money in all accounts unchanged. |
| `Ledger.Transfer` | main.py:348-349 | Moving an amount from one user's account to one seller's, with no other account touched, leaves the total money in the store unchanged. |
| `Purchase.PurchaseLeavesNoNegatives` | main.py:336-350 | After a successful purchase, the product's stock and the buyer's account are both ≥ 0. |
| `Purchase.PurchasePreservesValid` | main.py:345-362 | A successful purchase keeps every column bound and every REFERENCES constraint. |
| `Purchase.PositivePurchaseFaults` | main.py:347-362 | In a valid store, with quantity > 0 and price ≥ 0, the only write that can fail (and roll back) is the seller's credit overflowing DECIMAL(10,2). |
| `Purchase.NegativeQuantityReversesPayment` | main.py:336-350 | As written, a successful purchase with a negative quantity of a product with a positive price raises the buyer's account, lowers the seller's, increases the stock and logs a negative quantity. |
| `Purchase.NegativeQuantityExample` | main.py:621-624 | Concrete case: buying -3 of a 100.00 product with 5 in stock succeeds. The buyer gains 300.00, the seller loses 300.00, and stock becomes 8. |
| `Purchase.PurchaseCheckedIff` | main.py:323-343 | The corrected purchase rejects exactly the quantities ≤ 0. For any other quantity it behaves like the purchase as written. |
| `Purchase.CheckedPurchaseMovesGoodsForward` | main.py:336-350 | With the quantity checked, stock strictly drops and the logged quantity is positive. With price ≥ 0, the buyer never gains and the seller never loses. |
| `Purchase.ScenarioBuyThenRunOut` | main.py:323-357 | A buyer with 100.00 buys 3 units priced 30.00 from a stock of 5: balance becomes 10.00, stock 2, the seller gets 90.00, and one row is logged. A second purchase of 1 fails with InsufficientFunds. |
| `Search.MatchPositions` | main.py:233-235 | The scan positions whose rows pass the filter, strictly increasing. Every passing position is included. |
| `Search.SliceTo` | main.py:250 | Python's `s[:k]`: the first min(k, n) items when k ≥ 0, and n + k items (at least 0) when k < 0. |
| `Search.AppendRanked` | main.py:249-254 | The logging loop adds one searchlog row (user, query) and one searchresult row per product. Each result row points at its own log row and has rank r, r+1, … in order. Earlier rows are kept. |
| `Search.Record` | main.py:180-196 | Logging n products adds n searchlog rows and n searchresult rows with ranks 1..n. Users, sellers, products and the buy log are untouched. |
| `Search.ListingComplete` | main.py:233-247 | The listing contains a product exactly when the product passes the filter. |
| `Search.ListingOrdered` | main.py:238-247 | Each listed product carries its current columns, appears once, and the listing follows the scan order. |
| `Search.SearchNotFoundIff` | main.py:236-237 | A search raises NotFound exactly when no product matches. |
| `Search.SearchListsExactlyMatches` | main.py:258-282 | A successful search returns every matching product and no other, each once, in scan order, not truncated. |
| `Search.SearchLogsRanking` | main.py:284-307 | A successful search logs min(top_k, n) matches for top_k ≥ 0 (Python slicing for negative top_k). Each logged match gets one searchlog row with the query text (cut to 255 characters, which only happens when the cut part is blank) and one searchresult row with rank i+1 for the i-th match. Nothing else changes. |
| `Search.SearchFaults` | main.py:180-187 | A search that found matches fails only if it has a row to log and either the query text has a non-blank character past position 255 or the user does not exist. |
| `Search.RecordPreservesValid` | main.py:189-196 | Logging products that exist, for an existing user, with a query that fits, keeps the schema's constraints. |
| `Search.SearchPreservesValid` | main.py:232-307 | Every successful search keeps the schema's constraints. |
| `Search.NameSearchIsSubstring` | main.py:285-286 | For a word without LIKE special characters, the name search matches exactly the names that contain the word. |
| `SqlLike.ContainsPattern` | main.py:286 | For such a word w, the pattern `%w%` matches a text exactly when w occurs in it. |
| `SqlLike.PlainPrefix` | main.py:286 | For such a word w, the pattern `w%` matches a text exactly when the text starts with w. |
| `SqlLike.UnderscoreIsWildcard` | main.py:286 | The search word "a_c" finds the name "abc", which does not contain "a_c". |
| `Accounts.ChargeAddsExactly` | main.py:161-164 | A successful charge raises that user's account by exactly the amount and changes nothing else. The store's total money rises by the same amount. |
| `Accounts.ChargeUnknownUserIsNoOp` | main.py:162-163 | Charging a user who does not exist succeeds and changes nothing. |
| `Accounts.ChargeFailsIff` | main.py:161-164 | A charge fails exactly when the user exists and the new balance would not fit DECIMAL(10,2). |
| `Accounts.MyPageChargeBounds` | main.py:740-746 | My Page rejects exactly the amounts outside 1..2000000. An accepted, successful charge raises the account by between 1 and 2000000 units. |
| `Accounts.ChargePreservesValid` | main.py:161-164 | A successful charge keeps the schema's constraints. |
| `Inventory.FieldColumnInverts` | main.py:23-30 | A menu choice selects a column exactly when the choice is that column's label. |
| `Inventory.AllowListExact` | main.py:23-30 | Exactly the six menu labels are mapped, distinct labels give distinct columns, and every updatable column is reachable from its label. |
| `Inventory.ColumnNamesSafe` | main.py:23-30 | Distinct columns have distinct SQL names, and none of them is product_id, seller_id or date_added, so no choice can rewrite a product's key, owner or creation time. |
| `Inventory.AssignTouchesOnlyTarget` | main.py:397-400 | An update writes its value into its own column and leaves every other column, and the owner, unchanged. |
| `Catalog.StoreVarchar` | database_setup.py:81-96 | A string is accepted by a VARCHAR(n) column exactly when every character past the n-th is a blank. The stored value is the string cut to n characters, so only blanks are dropped. |
| `Inventory.CoerceWritesFittingValue` | main.py:397-400 | A value that fits its column is written unchanged. Otherwise the written value fits, goes to the same column, and differs only by trailing blanks cut from a string. An out-of-range number raises the fault of its type: NUMERIC for price, INT for stock. |
| `Inventory.PaddedNameIsCut` | main.py:397-400 | "coat" followed by 252 blanks does not fit VARCHAR(255), yet the update stores "coat" followed by 251 blanks instead of failing. |
| `Inventory.UpdateOnlyOwnProduct` | main.py:397-407 | The update succeeds exactly when the column accepts the value and the product is the seller's. A value the column refuses fails the update, whatever the product. Otherwise the update raises NotFound exactly when the product is missing or owned by another seller. On success only that product changes: the target column holds the written value (the requested value when it fits), and every other column is unchanged. |
| `Inventory.DeleteOnlyOwnProduct` | main.py:409-419 | A delete succeeds exactly when the product is the seller's and nothing references it. It raises NotFound exactly when the product is not the seller's. It raises a foreign-key fault exactly when the product is the seller's but still referenced. On success only that product is removed. |
| `Inventory.UpdatePreservesValid` | main.py:397-407 | A successful update keeps the schema's constraints. |
| `Inventory.DeletePreservesValid` | main.py:409-419 | A successful delete keeps the schema's constraints, including every REFERENCES constraint. |
| `Session.StepPreservesValid` | main.py:323-419 | Every modelled backend call keeps the schema's constraints: purchase, My Page charge, the three filter searches, update and delete. This includes an unchecked purchase and a charge within My Page's bound. |
| `Session.PlacedIsPurchase` | main.py:621-624 | Placing an order, checked or not, either leaves the store as it was or gives the store of a successful purchase as written. |
| `Session.StockStaysNonNegative` | main.py:336-350 | Starting from a store with no negative stock, no run of purchases, as written or checked, leaves any product's stock below zero. |
| `Session.StockLedger` | main.py:345-357 | Over any run of purchases, as written or checked, each product's stock loss equals the quantities the new buy-log rows record for it. Earlier buy-log rows and the set of products are unchanged. |
| `Session.UncheckedRunRaisesStock` | main.py:621-624 | An order typed as -3 on the search screen raises the stock from 5 to 8. The buy log then records -3 bought. |
| `Session.OrderNeverRises` | main.py:336-357 | One validated purchase, kept or failed, keeps the earlier buy-log rows, appends only rows with a positive quantity, and raises no product's stock. |
| `Session.StockNeverRises` | main.py:336-357 | With quantities validated, no run of purchases raises any product's stock. Earlier buy-log rows are kept, and every new row has a positive quantity. |
| `Session.PurchasesConserveMoney` | main.py:340-350 | Any run of purchases on a valid store, as written or checked, keeps it valid and leaves the total money in all accounts unchanged. |

## Left out

- Connection setup, cursors and commit calls, and the database setup script's DDL, views and seed data. These are I/O. The store is a value.
- The aborted-transaction state that a failed statement leaves on the shared connection until the next rollback. `charge_account` does not roll back. The model treats every call as starting from a clean transaction.
- Style search (`search_nl`) with FashionCLIP embeddings and numpy. It depends on an external model, floating-point cosine similarity and argsort tie order.
- The front end: menus, input loops, state dispatch by name, and the route decorator. Of its checks, only the one it applies to a charge amount is modelled. It applies none to a purchase quantity.
- Parsing and rounding of front-end input. The model takes quantity and amount as integers and a price already in hundredths. Rounding a float price into DECIMAL(10,2), and text product ids cast by the engine, are not modelled.
- get_user, sign_in, sign_up, seller_login, seller_info, product_info, register_product and the three history queries. They are outside the modelled core, and the history queries are ordered by the engine on timestamps.
- Timestamps: date_added, search_date and purchase_date come from the clock. A log row's position stands in for its identity value and its time.
- Concurrency: the check-then-act race between the purchase's SELECT and its writes. A purchase is one atomic step.
- Python's Decimal context for price × quantity (28 significant digits). The model multiplies exactly. Only quantities far beyond INT range would be rounded, and those fail with the same error either way.
- Search: a name search word holding a quote character is spliced into the SQL text and changes the statement. The model excludes such words (`Spliceable`).
- Search: the sex filter takes a `ProductSex` value. A label outside the enum would be rejected by the engine. The front end only sends Male or Female.
- Search: the rank column's INT bound is not modelled. Reaching it would take more than 2^31 matches.

## Findings

| source | as written | input that shows it | evidently intended | confidence | as-written member | corrected member |
|---|---|---|---|---|---|---|
| main.py:336-343 | The purchase accepts any integer quantity. The front end passes its parsed input on unchecked (main.py:621). A negative quantity passes both checks because stock ≥ quantity and balance ≥ price × quantity both hold. | A buyer with 0.00 buys -3 of a product priced 100.00 with stock 5. It succeeds: the buyer gets 300.00, the seller loses 300.00, stock becomes 8, and the buy log records -3. | Only a positive quantity can be bought. A purchase then lowers the stock, and with a non-negative price it never pays the buyer. | high; not executed | `Purchase.NegativeQuantityReversesPayment` | `Purchase.CheckedPurchaseMovesGoodsForward` |

=== FILE: accounts.dfy ===
/** Topping up a user's account: the backend's charge_account and the
    bound the My Page screen applies before calling it. */
module Accounts {
  import opened Catalog
  import Ledger

  /** The largest amount, in whole currency units, My Page lets a user charge at once. */
  const MaxCharge: int := 2000000

  /** Adds `amount` whole units to the user's account. The UPDATE matches no
      row for an unknown user, which is no error and changes nothing; a sum
      outside DECIMAL(10,2) makes the statement fail. */
  function ChargeAccount(s: Store, user: UserId, amount: int): Result<Store>
  {
    if user !in s.users then Success(s)
    else
      var after := s.users[user].account + amount * CentsPerUnit;
      if !FitsMoney(after) then Failure(DbError(NumericOverflow))
      else Success(s.(users := s.users[user := s.users[user].(account := after)]))
  }

  /** My Page charges only an amount in 1..MaxCharge and otherwise reports
      an invalid amount without touching the store. */
  function ChargeFromMyPage(s: Store, user: UserId, amount: int): Result<Store>
  {
    if 0 < amount <= MaxCharge then ChargeAccount(s, user, amount) else Failure(InvalidInput)
  }

  /** A successful charge raises that user's account by exactly the amount,
      changes nothing else, and so raises the money in the store by the
      same amount. */
  lemma ChargeAddsExactly(s: Store, user: UserId, amount: int)
    requires user in s.users
    requires ChargeAccount(s, user, amount).Success?
    ensures var t := ChargeAccount(s, user, amount).value;
      && t.users.Keys == s.users.Keys
      && t.users[user] == s.users[user].(account := s.users[user].account + amount * CentsPerUnit)
      && (forall u :: u in s.users && u != user ==> t.users[u] == s.users[u])
      && t.sellers == s.sellers && t.products == s.products
      && t.searchLog == s.searchLog && t.searchResults == s.searchResults && t.buyLog == s.buyLog
      && Ledger.TotalMoney(t) == Ledger.TotalMoney(s) + amount * CentsPerUnit
  {
    var after := s.users[user].account + amount * CentsPerUnit;
    var t := ChargeAccount(s, user, amount).value;
    assert t == s.(users := s.users[user := s.users[user].(account := after)]);
    Ledger.UserAccountChange(s.users, t.users, user, after);
  }

  /** Charging an unknown user succeeds and changes nothing. */
  lemma ChargeUnknownUserIsNoOp(s: Store, user: UserId, amount: int)
    requires user !in s.users
    ensures ChargeAccount(s, user, amount) == Success(s)
  {
  }

  /** A charge fails exactly when the user exists and the new balance would
      not fit DECIMAL(10,2). */
  lemma ChargeFailsIff(s: Store, user: UserId, amount: int)
    ensures ChargeAccount(s, user, amount).Failure?
        <==> user in s.users && !FitsMoney(s.users[user].account + amount * CentsPerUnit)
  {
  }

  /** My Page rejects exactly the amounts outside 1..MaxCharge; an accepted
      charge that succeeds raises the account by at least 1.00 and at most
      MaxCharge units. */
  lemma MyPageChargeBounds(s: Store, user: UserId, amount: int)
    ensures ChargeFromMyPage(s, user, amount) == Failure(InvalidInput) <==> !(0 < amount <= MaxCharge)
    ensures user in s.users && ChargeFromMyPage(s, user, amount).Success? ==>
      var gain := ChargeFromMyPage(s, user, amount).value.users[user].account - s.users[user].account;
      CentsPerUnit <= gain <= MaxCharge * CentsPerUnit
  {
  }

  /** Charging keeps every constraint of the schema. */
  lemma ChargePreservesValid(s: Store, user: UserId, amount: int)
    requires Valid(s)
    requires ChargeAccount(s, user, amount).Success?
    ensures Valid(ChargeAccount(s, user, amount).value)
  {
  }
}

=== FILE: catalog.dfy ===
/** The marketplace catalog as an immutable value: the six tables of the
    schema (users, seller, product, searchlog, searchresult, buylog), the
    bounds the SQL engine enforces on their columns, the integrity the
    REFERENCES constraints keep, and the error taxonomy of the backend. */
module Catalog {

  /** Faults the SQL engine raises on its own; each aborts the statement. */
  datatype DbFault =
    | NumericOverflow      // a value does not fit DECIMAL(10,2)
    | IntegerOutOfRange    // a value does not fit INT
    | ValueTooLong         // a string longer than its VARCHAR(n)
    | ForeignKeyViolation  // a row would reference, or stop being referenced by, a missing row

  /** NotFoundError, InsufficientStockError and InsufficientFundsError of the
      backend, the front end's rejected input, and a fault of the engine. */
  datatype Error =
    | NotFound
    | InsufficientStock
    | InsufficientFunds
    | InvalidInput
    | DbError(fault: DbFault)

  /** An operation either yields its value or raises one typed error; a
      failure carries no store, so the caller keeps the store it had. */
  datatype Result<T> = Success(value: T) | Failure(error: Error)

  datatype Option<T> = None | Some(value: T)

  type UserId = int
  type SellerId = int
  type ProductId = int

  /** Money in hundredths of the currency unit, so DECIMAL(10,2) is exact. */
  type Money = int

  const CentsPerUnit: int := 100

  /** DECIMAL(10,2) holds values whose magnitude is below 10^8 units. */
  const MaxMoney: Money := 9_999_999_999

  /** INT is a 32-bit signed integer. */
  const MinInt: int := -0x8000_0000
  const MaxInt: int := 0x7fff_ffff

  /** VARCHAR widths of the product and searchlog columns. */
  const NameWidth: nat := 255
  const ImageLinkWidth: nat := 255
  const CategoryWidth: nat := 100
  const QueryWidth: nat := 255

  /** Storing a string into a VARCHAR(n) column: a value that fits is kept;
      a longer one is cut to n characters when every character past the
      n-th is a space, and refused otherwise (section 8.3 of the PostgreSQL
      manual, character types). */
  function StoreVarchar(v: string, n: nat): (r: Option<string>)
    ensures r.Some? <==> forall i :: n <= i < |v| ==> v[i] == ' '
    ensures r.Some? ==> |r.value| == (if |v| <= n then |v| else n)
    ensures r.Some? ==> r.value <= v && forall i :: |r.value| <= i < |v| ==> v[i] == ' '
  {
    if |v| <= n then Some(v)
    else if forall i :: n <= i < |v| ==> v[i] == ' ' then Some(v[..n])
    else None
  }

  predicate FitsMoney(x: int) { -MaxMoney <= x <= MaxMoney }

  predicate FitsInt(x: int) { MinInt <= x <= MaxInt }

  /** sex_type of the users table. */
  datatype UserSex = Male | Female | Other

  /** product_sex_type of the product table: 'Male', 'Female' or 'Unisex'.
      The constructors are named for the clothing line rather than after
      the labels, since `Male` and `Female` already name the users'
      sex_type; `Label` gives the database label of each. */
  datatype ProductSex = Menswear | Womenswear | Unisex {
    function Label(): string {
      match this
      case Menswear => "Male"
      case Womenswear => "Female"
      case Unisex => "Unisex"
    }
  }

  datatype User = User(
    username: string,
    password: string,
    sex: UserSex,
    email: string,
    birthDate: string,
    account: Money)

  datatype Seller = Seller(
    name: string,
    password: string,
    email: string,
    account: Money)

  datatype Product = Product(
    name: string,
    imageLink: string,
    sex: ProductSex,
    category: string,
    price: Money,
    seller: SellerId,
    stock: int)

  /** One searchlog row; its searchlog_id is its position in the log. */
  datatype SearchLogEntry = SearchLogEntry(user: UserId, query: string)

  /** One searchresult row: which searchlog row it belongs to, which product, which rank. */
  datatype SearchResultEntry = SearchResultEntry(log: nat, product: ProductId, rank: int)

  datatype BuyLogEntry = BuyLogEntry(user: UserId, product: ProductId, quantity: int)

  datatype Store = Store(
    users: map<UserId, User>,
    sellers: map<SellerId, Seller>,
    products: map<ProductId, Product>,
    searchLog: seq<SearchLogEntry>,
    searchResults: seq<SearchResultEntry>,
    buyLog: seq<BuyLogEntry>)

  /** Every column of a product row holds a value its SQL type admits. */
  predicate ProductFits(p: Product) {
    && |p.name| <= NameWidth
    && |p.imageLink| <= ImageLinkWidth
    && |p.category| <= CategoryWidth
    && FitsMoney(p.price)
    && FitsInt(p.stock)
  }

  /** What the schema guarantees of every reachable store: column types are
      respected and every REFERENCES constraint holds. */
  predicate Valid(s: Store) {
    && (forall u :: u in s.users ==> FitsMoney(s.users[u].account))
    && (forall x :: x in s.sellers ==> FitsMoney(s.sellers[x].account))
    && (forall id :: id in s.products ==> ProductFits(s.products[id]) && s.products[id].seller in s.sellers)
    && (forall i :: 0 <= i < |s.searchLog| ==>
          s.searchLog[i].user in s.users && |s.searchLog[i].query| <= QueryWidth)
    && (forall i :: 0 <= i < |s.searchResults| ==>
          s.searchResults[i].log < |s.searchLog| && s.searchResults[i].product in s.products)
    && (forall i :: 0 <= i < |s.buyLog| ==>
          s.buyLog[i].user in s.users && s.buyLog[i].product in s.products && FitsInt(s.buyLog[i].quantity))
  }
}

=== FILE: inventory.dfy ===
/** A seller's maintenance of their own listings: the allow-list of
    updatable product columns, update_product and delete_product. Both
    touch a product only when it belongs to the given seller. */
module Inventory {
  import opened Catalog

  /** The product columns a seller may update. */
  datatype Column = GoodsName | ImageLink | Sex | Category | Price | StockQuantity

  function ColumnName(c: Column): string {
    match c
    case GoodsName => "goods_name"
    case ImageLink => "image_link"
    case Sex => "sex"
    case Category => "category"
    case Price => "price"
    case StockQuantity => "stock_quantity"
  }

  /** The menu label of the update screen that selects each column. */
  function Label(c: Column): string {
    match c
    case GoodsName => "이름"
    case ImageLink => "이미지 URL"
    case Sex => "성별"
    case Category => "카테고리"
    case Price => "가격"
    case StockQuantity => "수량"
  }

  /** The menu labels, in menu order. */
  const FieldLabels: seq<string> := [Label(GoodsName), Label(ImageLink), Label(Sex), Label(Category), Label(Price), Label(StockQuantity)]

  /** Where a column's label sits in the menu. */
  function Position(c: Column): (i: nat)
    ensures i < |FieldLabels| && FieldLabels[i] == Label(c)
  {
    match c
    case GoodsName => 0
    case ImageLink => 1
    case Sex => 2
    case Category => 3
    case Price => 4
    case StockQuantity => 5
  }

  /** PRODUCT_FIELD_MAP: the only way a menu choice becomes a column name
      spliced into the UPDATE statement. */
  function FieldColumn(choice: string): Option<Column> {
    if choice == "이름" then Some(GoodsName)
    else if choice == "이미지 URL" then Some(ImageLink)
    else if choice == "성별" then Some(Sex)
    else if choice == "카테고리" then Some(Category)
    else if choice == "가격" then Some(Price)
    else if choice == "수량" then Some(StockQuantity)
    else None
  }

  /** A choice selects a column exactly when it is that column's label. */
  lemma FieldColumnInverts(choice: string, c: Column)
    ensures FieldColumn(choice) == Some(c) <==> choice == Label(c)
  {
  }

  /** The allow-list is exact: precisely the six menu labels are mapped,
      distinct labels reach distinct columns, and every updatable column
      is reachable from its label. */
  lemma AllowListExact()
    ensures forall choice :: FieldColumn(choice).Some? <==> choice in FieldLabels
    ensures forall a, b :: FieldColumn(a).Some? && FieldColumn(a) == FieldColumn(b) ==> a == b
    ensures forall c: Column :: Label(c) in FieldLabels && FieldColumn(Label(c)) == Some(c)
  {
    forall choice
      ensures FieldColumn(choice).Some? <==> choice in FieldLabels
    {
      if FieldColumn(choice).Some? {
        FieldColumnInverts(choice, FieldColumn(choice).value);
      }
    }
    forall a, b | FieldColumn(a).Some? && FieldColumn(a) == FieldColumn(b)
      ensures a == b
    {
      FieldColumnInverts(a, FieldColumn(a).value);
      FieldColumnInverts(b, FieldColumn(a).value);
    }
    forall c: Column
      ensures Label(c) in FieldLabels && FieldColumn(Label(c)) == Some(c)
    {
      assert FieldLabels[Position(c)] == Label(c);
      FieldColumnInverts(Label(c), c);
    }
  }

  /** Distinct columns have distinct names, and none of them is the key,
      the owner or the creation time of a product, so no menu choice can
      rewrite those. */
  lemma ColumnNamesSafe(c: Column, d: Column)
    ensures ColumnName(c) == ColumnName(d) ==> c == d
    ensures ColumnName(c) != "product_id" && ColumnName(c) != "seller_id" && ColumnName(c) != "date_added"
  {
  }

  /** A new value for one column, typed as the update screen reads it. */
  datatype Assignment =
    | SetName(name: string)
    | SetImageLink(imageLink: string)
    | SetSex(sex: ProductSex)
    | SetCategory(category: string)
    | SetPrice(price: Money)
    | SetStock(stock: int)

  function Target(a: Assignment): Column {
    match a
    case SetName(_) => GoodsName
    case SetImageLink(_) => ImageLink
    case SetSex(_) => Sex
    case SetCategory(_) => Category
    case SetPrice(_) => Price
    case SetStock(_) => StockQuantity
  }

  function Assign(p: Product, a: Assignment): Product {
    match a
    case SetName(v) => p.(name := v)
    case SetImageLink(v) => p.(imageLink := v)
    case SetSex(v) => p.(sex := v)
    case SetCategory(v) => p.(category := v)
    case SetPrice(v) => p.(price := v)
    case SetStock(v) => p.(stock := v)
  }

  /** The value fits its column as it is. */
  predicate Fits(a: Assignment) {
    match a
    case SetName(v) => |v| <= NameWidth
    case SetImageLink(v) => |v| <= ImageLinkWidth
    case SetSex(_) => true
    case SetCategory(v) => |v| <= CategoryWidth
    case SetPrice(v) => FitsMoney(v)
    case SetStock(v) => FitsInt(v)
  }

  /** The value the engine actually writes for an assignment, or the fault
      it raises. The fault is raised while the statement is prepared,
      before any row is looked at. A string that overflows its column only
      with blanks is cut to the column's width. */
  function Coerce(a: Assignment): Result<Assignment> {
    match a
    case SetName(v) =>
      (match StoreVarchar(v, NameWidth)
       case Some(w) => Success(SetName(w))
       case None => Failure(DbError(ValueTooLong)))
    case SetImageLink(v) =>
      (match StoreVarchar(v, ImageLinkWidth)
       case Some(w) => Success(SetImageLink(w))
       case None => Failure(DbError(ValueTooLong)))
    case SetSex(_) => Success(a)
    case SetCategory(v) =>
      (match StoreVarchar(v, CategoryWidth)
       case Some(w) => Success(SetCategory(w))
       case None => Failure(DbError(ValueTooLong)))
    case SetPrice(v) => if FitsMoney(v) then Success(a) else Failure(DbError(NumericOverflow))
    case SetStock(v) => if FitsInt(v) then Success(a) else Failure(DbError(IntegerOutOfRange))
  }

  /** A value that fits is written unchanged. Whatever is written fits,
      goes to the same column, and differs from the requested value at
      most by blanks cut from its end. Numbers are never altered, and a
      fault is the one the column's type calls for. */
  lemma CoerceWritesFittingValue(a: Assignment)
    ensures Fits(a) ==> Coerce(a) == Success(a)
    ensures Coerce(a).Success? ==>
      var b := Coerce(a).value;
      && Fits(b) && Target(b) == Target(a)
      && (a.SetName? ==>
            b.name <= a.name && forall i :: |b.name| <= i < |a.name| ==> a.name[i] == ' ')
      && (a.SetImageLink? ==>
            b.imageLink <= a.imageLink && forall i :: |b.imageLink| <= i < |a.imageLink| ==> a.imageLink[i] == ' ')
      && (a.SetCategory? ==>
            b.category <= a.category && forall i :: |b.category| <= i < |a.category| ==> a.category[i] == ' ')
      && (a.SetSex? || a.SetPrice? || a.SetStock? ==> b == a)
    ensures Coerce(a).Failure? ==>
      && !Fits(a)
      && Coerce(a).error == DbError(
           if a.SetPrice? then NumericOverflow else if a.SetStock? then IntegerOutOfRange else ValueTooLong)
  {
  }

  /** A name of "coat" padded with 252 blanks is 256 characters long: it is
      not refused but stored cut to 255 characters. */
  lemma PaddedNameIsCut()
    ensures var v := "coat" + seq(252, _ => ' ');
      && !Fits(SetName(v))
      && Coerce(SetName(v)) == Success(SetName("coat" + seq(251, _ => ' ')))
  {
    var v := "coat" + seq(252, _ => ' ');
    assert forall i :: NameWidth <= i < |v| ==> v[i] == ' ';
    assert v[..NameWidth] == "coat" + seq(251, _ => ' ');
  }

  /** `p` and `q` agree on every column but `c`, and on the owner. */
  predicate SameExcept(p: Product, q: Product, c: Column) {
    && (c != GoodsName ==> p.name == q.name)
    && (c != ImageLink ==> p.imageLink == q.imageLink)
    && (c != Sex ==> p.sex == q.sex)
    && (c != Category ==> p.category == q.category)
    && (c != Price ==> p.price == q.price)
    && (c != StockQuantity ==> p.stock == q.stock)
    && p.seller == q.seller
  }

  /** The product belongs to the seller. */
  predicate Owns(s: Store, seller: SellerId, product: ProductId) {
    product in s.products && s.products[product].seller == seller
  }

  /** update_product: set one allow-listed column of the product, but only
      on the row whose id and owner both match; when no row matches, the
      backend raises NotFound. */
  function UpdateProduct(s: Store, product: ProductId, a: Assignment, seller: SellerId): Result<Store>
  {
    match Coerce(a)
    case Failure(e) => Failure(e)
    case Success(b) =>
      if !Owns(s, seller, product) then Failure(NotFound)
      else Success(s.(products := s.products[product := Assign(s.products[product], b)]))
  }

  /** Some buy-log or search-result row refers to the product. */
  predicate Referenced(s: Store, product: ProductId) {
    || (exists i :: 0 <= i < |s.buyLog| && s.buyLog[i].product == product)
    || (exists i :: 0 <= i < |s.searchResults| && s.searchResults[i].product == product)
  }

  /** delete_product: remove the row whose id and owner both match; when no
      row matches, the backend raises NotFound, and a row still referred to
      by the buy log or the search results cannot go. */
  function DeleteProduct(s: Store, product: ProductId, seller: SellerId): Result<Store>
  {
    if !Owns(s, seller, product) then Failure(NotFound)
    else if Referenced(s, product) then Failure(DbError(ForeignKeyViolation))
    else Success(s.(products := s.products - {product}))
  }

  /** An assignment sets its own column to its value and leaves every other
      column, and the owner, as they were. */
  lemma AssignTouchesOnlyTarget(p: Product, a: Assignment)
    ensures SameExcept(p, Assign(p, a), Target(a))
    ensures match a
      case SetName(v) => Assign(p, a).name == v
      case SetImageLink(v) => Assign(p, a).imageLink == v
      case SetSex(v) => Assign(p, a).sex == v
      case SetCategory(v) => Assign(p, a).category == v
      case SetPrice(v) => Assign(p, a).price == v
      case SetStock(v) => Assign(p, a).stock == v
  {
  }

  /** A value its column refuses fails the update whatever the product.
      Otherwise an update raises NotFound exactly when the product is
      missing or belongs to another seller. On success only that product
      changes: its target column holds the written value (the requested
      one, when it fits), and every other column is as it was. */
  lemma UpdateOnlyOwnProduct(s: Store, product: ProductId, a: Assignment, seller: SellerId)
    ensures Coerce(a).Failure? ==> UpdateProduct(s, product, a, seller) == Failure(Coerce(a).error)
    ensures Coerce(a).Success? ==>
      (UpdateProduct(s, product, a, seller) == Failure(NotFound) <==> !Owns(s, seller, product))
    ensures UpdateProduct(s, product, a, seller).Success? <==> Coerce(a).Success? && Owns(s, seller, product)
    ensures UpdateProduct(s, product, a, seller).Success? ==>
      var t := UpdateProduct(s, product, a, seller).value;
      && Coerce(a).Success?
      && Owns(s, seller, product) && Owns(t, seller, product)
      && t.products.Keys == s.products.Keys
      && t.products[product] == Assign(s.products[product], Coerce(a).value)
      && (Fits(a) ==> t.products[product] == Assign(s.products[product], a))
      && SameExcept(s.products[product], t.products[product], Target(a))
      && (forall id :: id in s.products && id != product ==> t.products[id] == s.products[id])
      && t.users == s.users && t.sellers == s.sellers
      && t.searchLog == s.searchLog && t.searchResults == s.searchResults && t.buyLog == s.buyLog
  {
    CoerceWritesFittingValue(a);
    if UpdateProduct(s, product, a, seller).Success? {
      AssignTouchesOnlyTarget(s.products[product], Coerce(a).value);
    }
  }

  /** A delete raises NotFound exactly when the product is missing or
      belongs to another seller, and a foreign-key fault exactly when it is
      the seller's but still referred to. On success the product is gone
      and nothing else changes. */
  lemma DeleteOnlyOwnProduct(s: Store, product: ProductId, seller: SellerId)
    ensures DeleteProduct(s, product, seller) == Failure(NotFound) <==> !Owns(s, seller, product)
    ensures DeleteProduct(s, product, seller) == Failure(DbError(ForeignKeyViolation))
        <==> Owns(s, seller, product) && Referenced(s, product)
    ensures DeleteProduct(s, product, seller).Success? <==> Owns(s, seller, product) && !Referenced(s, product)
    ensures DeleteProduct(s, product, seller).Success? ==>
      var t := DeleteProduct(s, product, seller).value;
      && product !in t.products
      && t.products == s.products - {product}
      && t.users == s.users && t.sellers == s.sellers
      && t.searchLog == s.searchLog && t.searchResults == s.searchResults && t.buyLog == s.buyLog
  {
  }

  /** Updating keeps every constraint of the schema. */
  lemma UpdatePreservesValid(s: Store, product: ProductId, a: Assignment, seller: SellerId)
    requires Valid(s)
    requires UpdateProduct(s, product, a, seller).Success?
    ensures Valid(UpdateProduct(s, product, a, seller).value)
  {
    CoerceWritesFittingValue(a);
  }

  /** Deleting keeps every constraint of the schema: the REFERENCES
      constraints are what forbid deleting a referenced product. */
  lemma DeletePreservesValid(s: Store, product: ProductId, seller: SellerId)
    requires Valid(s)
    requires DeleteProduct(s, product, seller).Success?
    ensures Valid(DeleteProduct(s, product, seller).value)
  {
    var t := DeleteProduct(s, product, seller).value;
    forall i | 0 <= i < |t.buyLog|
      ensures t.buyLog[i].product in t.products
    {
      assert s.buyLog[i].product != product;
    }
    forall i | 0 <= i < |t.searchResults|
      ensures t.searchResults[i].product in t.products
    {
      assert s.searchResults[i].product != product;
    }
  }
}

=== FILE: ledger.dfy ===
/** Money held by the store as a whole: the sum of every user's and every
    seller's account, and how that sum moves when one account changes. */
module Ledger {
  import opened Catalog

  /** A set with a positive size has a member to pick. */
  lemma NonEmptyHasMember(keys: set<int>)
    requires |keys| != 0
    ensures exists k :: k in keys
  {
    if forall k :: k !in keys {
      assert false;
    }
  }

  /** The sum of the values of a map, taken in any order. */
  ghost function Sum(m: map<int, int>): int
    decreases |m|
  {
    if |m| == 0 then 0
    else
      NonEmptyHasMember(m.Keys);
      var k :| k in m;
      m[k] + Sum(m - {k})
  }

  /** Sum does not depend on which key is taken out first. */
  lemma {:induction false} SumRemove(m: map<int, int>, x: int)
    requires x in m
    ensures Sum(m) == m[x] + Sum(m - {x})
    decreases |m|
  {
    var k :| k in m && Sum(m) == m[k] + Sum(m - {k});
    if k != x {
      assert x in m - {k};
      SumRemove(m - {k}, x);
      assert (m - {k}) - {x} == (m - {x}) - {k};
      assert k in m - {x};
      SumRemove(m - {x}, k);
    }
  }

  /** Equal maps have equal sums. */
  lemma SumEqual(m: map<int, int>, n: map<int, int>)
    requires m == n
    ensures Sum(m) == Sum(n)
  {
  }

  /** Replacing one value moves the sum by exactly the difference. */
  lemma SumUpdate(m: map<int, int>, x: int, v: int)
    requires x in m
    ensures Sum(m[x := v]) == Sum(m) - m[x] + v
  {
    SumRemove(m, x);
    SumRemove(m[x := v], x);
    assert m[x := v] - {x} == m - {x};
  }

  /** Each user's balance, by user. */
  function UserAccounts(users: map<UserId, User>): map<UserId, Money> {
    map u | u in users :: users[u].account
  }

  /** Each seller's balance, by seller. */
  function SellerAccounts(sellers: map<SellerId, Seller>): map<SellerId, Money> {
    map x | x in sellers :: sellers[x].account
  }

  /** All money held in user and seller accounts. */
  ghost function TotalMoney(s: Store): int {
    Sum(UserAccounts(s.users)) + Sum(SellerAccounts(s.sellers))
  }

  /** Changing one user's account, and nothing else about money, moves the
      total by exactly the change. */
  lemma UserAccountChange(users: map<UserId, User>, after: map<UserId, User>, u: UserId, a: Money)
    requires u in users
    requires after == users[u := users[u].(account := a)]
    ensures Sum(UserAccounts(after)) == Sum(UserAccounts(users)) - users[u].account + a
  {
    assert UserAccounts(after) == UserAccounts(users)[u := a];
    SumUpdate(UserAccounts(users), u, a);
    SumEqual(UserAccounts(after), UserAccounts(users)[u := a]);
  }

  lemma SellerAccountChange(sellers: map<SellerId, Seller>, after: map<SellerId, Seller>, x: SellerId, a: Money)
    requires x in sellers
    requires after == sellers[x := sellers[x].(account := a)]
    ensures Sum(SellerAccounts(after)) == Sum(SellerAccounts(sellers)) - sellers[x].account + a
  {
    assert SellerAccounts(after) == SellerAccounts(sellers)[x := a];
    SumUpdate(SellerAccounts(sellers), x, a);
    SumEqual(SellerAccounts(after), SellerAccounts(sellers)[x := a]);
  }

  /** Moving `amount` from a user's account to a seller's, and changing
      nothing else about money, keeps the total. */
  lemma Transfer(s: Store, t: Store, user: UserId, seller: SellerId, amount: Money)
    requires user in s.users && seller in s.sellers
    requires t.users == s.users[user := s.users[user].(account := s.users[user].account - amount)]
    requires t.sellers == s.sellers[seller := s.sellers[seller].(account := s.sellers[seller].account + amount)]
    ensures TotalMoney(t) == TotalMoney(s)
  {
    UserAccountChange(s.users, t.users, user, s.users[user].account - amount);
    SellerAccountChange(s.sellers, t.sellers, seller, s.sellers[seller].account + amount);
  }
}

=== FILE: purchase.dfy ===
/** The purchase transaction: look up the user and the product together,
    check stock, then funds, then debit the buyer, credit the seller,
    decrement the stock and append a buy-log row, all or nothing. */
module Purchase {
  import opened Catalog
  import Ledger

  /** The four writes of a purchase once both checks have passed, in the
      order the backend issues them. A write that would put a value outside
      its column raises, and the ROLLBACK undoes the writes before it, so a
      failure leaves the store as it was. The seller's UPDATE matches no row
      when the seller does not exist; the REFERENCES constraint on the
      product's seller rules that out in every valid store. */
  function Commit(s: Store, user: UserId, product: ProductId, quantity: int, total: Money): Result<Store>
    requires user in s.users && product in s.products
  {
    var p := s.products[product];
    var seller := p.seller;
    var buyerAfter := s.users[user].account - total;
    if !FitsMoney(buyerAfter) then Failure(DbError(NumericOverflow))
    else if seller in s.sellers && !FitsMoney(s.sellers[seller].account + total) then Failure(DbError(NumericOverflow))
    else if !FitsInt(p.stock - quantity) then Failure(DbError(IntegerOutOfRange))
    else if !FitsInt(quantity) then Failure(DbError(IntegerOutOfRange))
    else
      Success(s.(
        users := s.users[user := s.users[user].(account := buyerAfter)],
        sellers :=
          if seller in s.sellers
          then s.sellers[seller := s.sellers[seller].(account := s.sellers[seller].account + total)]
          else s.sellers,
        products := s.products[product := p.(stock := p.stock - quantity)],
        buyLog := s.buyLog + [BuyLogEntry(user, product, quantity)]))
  }

  /** The purchase as the backend performs it. The quantity is whatever
      integer the front end parsed; nothing checks that it is positive. */
  function Purchase(s: Store, user: UserId, product: ProductId, quantity: int): Result<Store>
  {
    if user !in s.users || product !in s.products then Failure(NotFound)
    else
      var p := s.products[product];
      if p.stock < quantity then Failure(InsufficientStock)
      else
        var total := p.price * quantity;
        if s.users[user].account < total then Failure(InsufficientFunds)
        else Commit(s, user, product, quantity, total)
  }

  /** The purchase with the quantity validated first. A purchase is meant
      to move goods to the buyer and money to the seller, never the other
      way; only a positive quantity guarantees that, so only a positive
      quantity can be bought. */
  function PurchaseChecked(s: Store, user: UserId, product: ProductId, quantity: int): Result<Store>
  {
    if quantity <= 0 then Failure(InvalidInput) else Purchase(s, user, product, quantity)
  }

  /** The total a purchase moves from the buyer to the seller. */
  function TotalPrice(s: Store, product: ProductId, quantity: int): Money
    requires product in s.products
  {
    s.products[product].price * quantity
  }

  /** NotFound is raised exactly when the user or the product is missing. */
  lemma PurchaseNotFoundIff(s: Store, user: UserId, product: ProductId, quantity: int)
    ensures Purchase(s, user, product, quantity) == Failure(NotFound)
        <==> user !in s.users || product !in s.products
  {
  }

  /** InsufficientStock is raised exactly when both rows exist and the stock
      is below the quantity, whether or not the funds would also fall short:
      the stock check comes first. */
  lemma PurchaseStockCheckedFirst(s: Store, user: UserId, product: ProductId, quantity: int)
    ensures Purchase(s, user, product, quantity) == Failure(InsufficientStock)
        <==> user in s.users && product in s.products && s.products[product].stock < quantity
  {
  }

  /** InsufficientFunds is raised exactly when the stock suffices and the
      buyer's account is below price times quantity. */
  lemma PurchaseFundsIff(s: Store, user: UserId, product: ProductId, quantity: int)
    ensures Purchase(s, user, product, quantity) == Failure(InsufficientFunds)
        <==> && user in s.users && product in s.products
             && s.products[product].stock >= quantity
             && s.users[user].account < TotalPrice(s, product, quantity)
  {
  }

  /** A successful purchase passed both checks, and it performs exactly the
      four writes: the buyer pays price times quantity, the seller receives
      it, the stock drops by the quantity, and one buy-log row is appended.
      Every other user, seller, product, log row and column is unchanged. */
  lemma PurchaseBookkeeping(s: Store, user: UserId, product: ProductId, quantity: int)
    requires Purchase(s, user, product, quantity).Success?
    ensures user in s.users && product in s.products
    ensures s.products[product].stock >= quantity
    ensures s.users[user].account >= TotalPrice(s, product, quantity)
    ensures var t := Purchase(s, user, product, quantity).value;
      var p := s.products[product];
      var total := TotalPrice(s, product, quantity);
      && t.users.Keys == s.users.Keys
      && t.sellers.Keys == s.sellers.Keys
      && t.products.Keys == s.products.Keys
      && t.users[user] == s.users[user].(account := s.users[user].account - total)
      && (p.seller in s.sellers ==>
            t.sellers[p.seller] == s.sellers[p.seller].(account := s.sellers[p.seller].account + total))
      && t.products[product] == p.(stock := p.stock - quantity)
      && (forall u :: u in s.users && u != user ==> t.users[u] == s.users[u])
      && (forall x :: x in s.sellers && x != p.seller ==> t.sellers[x] == s.sellers[x])
      && (forall id :: id in s.products && id != product ==> t.products[id] == s.products[id])
      && t.buyLog == s.buyLog + [BuyLogEntry(user, product, quantity)]
      && t.searchLog == s.searchLog && t.searchResults == s.searchResults
  {
  }

  /** Money is conserved: what the buyer pays the seller receives, so the
      total held in all accounts does not change. */
  lemma PurchaseConservesMoney(s: Store, user: UserId, product: ProductId, quantity: int)
    requires Valid(s)
    requires Purchase(s, user, product, quantity).Success?
    ensures Ledger.TotalMoney(Purchase(s, user, product, quantity).value) == Ledger.TotalMoney(s)
  {
    var t := Purchase(s, user, product, quantity).value;
    var p := s.products[product];
    var total := TotalPrice(s, product, quantity);
    assert p.seller in s.sellers;
    assert t == Commit(s, user, product, quantity, total).value;
    Ledger.Transfer(s, t, user, p.seller, total);
  }

  /** Both checks precede the writes, so a successful purchase never leaves
      the stock or the buyer's account negative. */
  lemma PurchaseLeavesNoNegatives(s: Store, user: UserId, product: ProductId, quantity: int)
    requires Purchase(s, user, product, quantity).Success?
    ensures Purchase(s, user, product, quantity).value.products[product].stock >= 0
    ensures Purchase(s, user, product, quantity).value.users[user].account >= 0
  {
    PurchaseBookkeeping(s, user, product, quantity);
  }

  /** A purchase keeps every constraint of the schema. */
  lemma PurchasePreservesValid(s: Store, user: UserId, product: ProductId, quantity: int)
    requires Valid(s)
    requires Purchase(s, user, product, quantity).Success?
    ensures Valid(Purchase(s, user, product, quantity).value)
  {
    PurchaseBookkeeping(s, user, product, quantity);
    var t := Purchase(s, user, product, quantity).value;
    forall i | 0 <= i < |t.buyLog|
      ensures t.buyLog[i].user in t.users && t.buyLog[i].product in t.products && FitsInt(t.buyLog[i].quantity)
    {
      if i < |s.buyLog| {
        assert t.buyLog[i] == s.buyLog[i];
      }
    }
  }

  /** In a valid store, with a positive quantity and a non-negative price,
      the only write that can fail is the seller's credit overflowing
      DECIMAL(10,2). */
  lemma PositivePurchaseFaults(s: Store, user: UserId, product: ProductId, quantity: int)
    requires Valid(s)
    requires quantity > 0
    requires product in s.products && s.products[product].price >= 0
    ensures var r := Purchase(s, user, product, quantity);
      r.Failure? && r.error.DbError? ==>
        && r.error == DbError(NumericOverflow)
        && s.sellers[s.products[product].seller].account + TotalPrice(s, product, quantity) > MaxMoney
  {
    var r := Purchase(s, user, product, quantity);
    if r.Failure? && r.error.DbError? {
      var p := s.products[product];
      assert 0 <= p.price * quantity;
      assert p.price * quantity <= s.users[user].account;
    }
  }

  /** The backend as written accepts a negative quantity: it passes both
      checks, the buyer's account goes up, the seller's goes down, the stock
      grows and the buy log records the negative quantity. */
  lemma NegativeQuantityReversesPayment(s: Store, user: UserId, product: ProductId, quantity: int)
    requires quantity < 0
    requires Purchase(s, user, product, quantity).Success?
    requires s.products[product].price > 0
    ensures var t := Purchase(s, user, product, quantity).value;
      var seller := s.products[product].seller;
      && t.users[user].account > s.users[user].account
      && (seller in s.sellers ==> t.sellers[seller].account < s.sellers[seller].account)
      && t.products[product].stock > s.products[product].stock
      && t.buyLog[|t.buyLog| - 1].quantity < 0
  {
    PurchaseBookkeeping(s, user, product, quantity);
    var p := s.products[product];
    assert p.price * quantity < 0;
  }

  /** A store with one user holding 0.00, one seller holding 0.00 and one
      product priced 100.00 with 5 in stock. */
  function SmallShop(): Store {
    Store(
      map[1 := User("buyer", "pw", Male, "buyer@example.com", "1990-01-01", 0)],
      map[7 := Seller("seller", "pw", "seller@example.com", 0)],
      map[3 := Product("coat", "coat.png", Unisex, "coat", 100 * CentsPerUnit, 7, 5)],
      [], [], [])
  }

  /** Buying -3 coats succeeds and moves 300.00 from the seller to the buyer. */
  lemma NegativeQuantityExample()
    ensures Purchase(SmallShop(), 1, 3, -3).Success?
    ensures Purchase(SmallShop(), 1, 3, -3).value.users[1].account == 300 * CentsPerUnit
    ensures Purchase(SmallShop(), 1, 3, -3).value.sellers[7].account == -300 * CentsPerUnit
    ensures Purchase(SmallShop(), 1, 3, -3).value.products[3].stock == 8
  {
  }

  /** The corrected purchase refuses exactly the non-positive quantities and
      otherwise behaves as the backend does. */
  lemma PurchaseCheckedIff(s: Store, user: UserId, product: ProductId, quantity: int)
    ensures PurchaseChecked(s, user, product, quantity) == Failure(InvalidInput) <==> quantity <= 0
    ensures quantity > 0 ==> PurchaseChecked(s, user, product, quantity) == Purchase(s, user, product, quantity)
  {
  }

  /** With the quantity checked, goods only ever flow from seller to buyer:
      the stock strictly drops, the buy log records a positive quantity and,
      for a non-negative price, the buyer never gains and the seller never
      loses. */
  lemma CheckedPurchaseMovesGoodsForward(s: Store, user: UserId, product: ProductId, quantity: int)
    requires PurchaseChecked(s, user, product, quantity).Success?
    ensures var t := PurchaseChecked(s, user, product, quantity).value;
      var p := s.products[product];
      && product in s.products && user in s.users
      && t.products[product].stock < p.stock
      && t.buyLog[|t.buyLog| - 1].quantity > 0
      && (p.price >= 0 ==> t.users[user].account <= s.users[user].account)
      && (p.price >= 0 && p.seller in s.sellers ==> t.sellers[p.seller].account >= s.sellers[p.seller].account)
  {
    PurchaseBookkeeping(s, user, product, quantity);
    var p := s.products[product];
    assert p.price >= 0 ==> p.price * quantity >= 0;
  }

  /** A user holding 100.00 buys 3 of a product priced 30.00 with 5 in
      stock; a second purchase of 1 then fails for lack of funds. */
  function ScenarioShop(): Store {
    Store(
      map[1 := User("buyer", "pw", Female, "buyer@example.com", "1992-02-02", 100 * CentsPerUnit)],
      map[7 := Seller("seller", "pw", "seller@example.com", 0)],
      map[3 := Product("jacket", "jacket.png", Womenswear, "jackets", 30 * CentsPerUnit, 7, 5)],
      [], [], [])
  }

  lemma ScenarioBuyThenRunOut()
    ensures Purchase(ScenarioShop(), 1, 3, 3).Success?
    ensures var t := Purchase(ScenarioShop(), 1, 3, 3).value;
      && t.users[1].account == 10 * CentsPerUnit
      && t.products[3].stock == 2
      && t.sellers[7].account == 90 * CentsPerUnit
      && t.buyLog == [BuyLogEntry(1, 3, 3)]
      && Purchase(t, 1, 3, 1) == Failure(InsufficientFunds)
  {
  }
}

=== FILE: search.dfy ===
/** The three exact-match search modes of the backend (filter by sex,
    filter by category, search by name). Each scans the product table,
    raises NotFound when nothing matches, logs the first `topK` matches with
    their 1-based ranks, and returns every match. */
module Search {
  import opened Catalog
  import SqlLike

  /** The filter a search mode applies. */
  datatype Criterion =
    | BySex(sex: ProductSex)
    | ByCategory(category: string)
    | ByName(name: string)

  /** The search_query text each mode writes into every searchlog row. */
  function QueryText(c: Criterion): string {
    match c
    case BySex(x) => "Filter Sex: " + x.Label()
    case ByCategory(x) => "Filter Category: " + x
    case ByName(x) => "Search name: " + x
  }

  /** The row filter of each mode: equality on sex or on category, and for
      the name search a LIKE match of the product name against the word
      wrapped in '%' on both sides. */
  predicate Matches(c: Criterion, p: Product) {
    match c
    case BySex(x) => p.sex == x
    case ByCategory(x) => p.category == x
    case ByName(x) => SqlLike.Like(p.name, "%" + x + "%")
  }

  /** The name search splices its word into the SQL text between quotes; a
      word holding a quote character would change the statement itself. */
  predicate Spliceable(c: Criterion) {
    c.ByName? ==> '\'' !in c.name
  }

  /** The columns of a product a search hands back to its caller. */
  datatype ProductView = ProductView(
    id: ProductId,
    name: string,
    imageLink: string,
    sex: ProductSex,
    category: string,
    price: Money)

  function View(id: ProductId, p: Product): ProductView {
    ProductView(id, p.name, p.imageLink, p.sex, p.category, p.price)
  }

  /** The product ids of a listing, in order. */
  function Ids(vs: seq<ProductView>): seq<ProductId> {
    seq(|vs|, i requires 0 <= i < |vs| => vs[i].id)
  }

  /** `scan` is the order in which the SQL engine returns the product rows:
      every row exactly once. The order itself is the engine's choice. */
  predicate Enumerates(scan: seq<ProductId>, products: map<ProductId, Product>) {
    && (forall i, j :: 0 <= i < j < |scan| ==> scan[i] != scan[j])
    && (forall i :: 0 <= i < |scan| ==> scan[i] in products)
    && (forall id :: id in products ==> id in scan)
  }

  /** The row at scan position `k` passes the filter. */
  predicate Hit(products: map<ProductId, Product>, scan: seq<ProductId>, c: Criterion, k: nat)
    requires k < |scan|
  {
    scan[k] in products && Matches(c, products[scan[k]])
  }

  /** The scan positions, from `from` on, whose rows pass the filter, in
      scan order. */
  function MatchPositions(products: map<ProductId, Product>, scan: seq<ProductId>, c: Criterion, from: nat): (r: seq<nat>)
    requires from <= |scan|
    decreases |scan| - from
    ensures forall i :: 0 <= i < |r| ==> from <= r[i] < |scan| && Hit(products, scan, c, r[i])
    ensures forall i, j :: 0 <= i < j < |r| ==> r[i] < r[j]
    ensures forall k :: from <= k < |scan| && Hit(products, scan, c, k) ==> k in r
  {
    if from == |scan| then []
    else
      var rest := MatchPositions(products, scan, c, from + 1);
      if Hit(products, scan, c, from) then [from] + rest else rest
  }

  function Min(a: int, b: int): int { if a <= b then a else b }

  function Max(a: int, b: int): int { if a <= b then b else a }

  /** Python's `s[:k]`: a negative `k` counts from the end. */
  function SliceTo<T>(s: seq<T>, k: int): (r: seq<T>)
    ensures |r| == if k >= 0 then Min(k, |s|) else Max(|s| + k, 0)
    ensures r == s[..|r|]
  {
    if k >= 0 then (if k <= |s| then s[..k] else s)
    else if -k <= |s| then s[..|s| + k]
    else []
  }

  /** The logging loop: for each listed product in turn, one searchlog row
      with the query, then one searchresult row pointing at that searchlog
      row with the current rank; the rank then goes up by one. */
  function AppendRanked(
    log: seq<SearchLogEntry>, results: seq<SearchResultEntry>,
    user: UserId, query: string, ids: seq<ProductId>, rank: int): (r: (seq<SearchLogEntry>, seq<SearchResultEntry>))
    decreases |ids|
    ensures |r.0| == |log| + |ids| && |r.1| == |results| + |ids|
    ensures r.0[..|log|] == log && r.1[..|results|] == results
    ensures forall i :: |log| <= i < |r.0| ==> r.0[i] == SearchLogEntry(user, query)
    ensures forall i :: 0 <= i < |ids| ==>
              r.1[|results| + i] == SearchResultEntry(|log| + i, ids[i], rank + i)
  {
    if ids == [] then (log, results)
    else
      var r := AppendRanked(
        log + [SearchLogEntry(user, query)],
        results + [SearchResultEntry(|log|, ids[0], rank)],
        user, query, ids[1..], rank + 1);
      assert forall i :: 1 <= i < |ids| ==> ids[1..][i - 1] == ids[i];
      r
  }

  /** Every product that passes the filter, in scan order. */
  function Listing(products: map<ProductId, Product>, scan: seq<ProductId>, c: Criterion): seq<ProductView> {
    var hits := MatchPositions(products, scan, c, 0);
    seq(|hits|, i requires 0 <= i < |hits| => View(scan[hits[i]], products[scan[hits[i]]]))
  }

  /** Position `i` of the listing is the `i`-th matching scan position. */
  lemma ListingAt(products: map<ProductId, Product>, scan: seq<ProductId>, c: Criterion)
    ensures var hits := MatchPositions(products, scan, c, 0);
      var vs := Listing(products, scan, c);
      && |vs| == |hits|
      && forall i :: 0 <= i < |vs| ==> scan[hits[i]] in products && vs[i] == View(scan[hits[i]], products[scan[hits[i]]])
  {
  }

  /** The listing holds every product that passes the filter and no other. */
  lemma ListingComplete(products: map<ProductId, Product>, scan: seq<ProductId>, c: Criterion)
    requires Enumerates(scan, products)
    ensures var vs := Listing(products, scan, c);
      forall id :: id in products ==> (id in Ids(vs) <==> Matches(c, products[id]))
  {
    var hits := MatchPositions(products, scan, c, 0);
    var vs := Listing(products, scan, c);
    ListingAt(products, scan, c);
    forall id | id in products
      ensures id in Ids(vs) <==> Matches(c, products[id])
    {
      if Matches(c, products[id]) {
        var k :| 0 <= k < |scan| && scan[k] == id;
        assert Hit(products, scan, c, k);
        var i :| 0 <= i < |hits| && hits[i] == k;
        assert Ids(vs)[i] == id;
      }
      if id in Ids(vs) {
        var i :| 0 <= i < |vs| && Ids(vs)[i] == id;
        assert Hit(products, scan, c, hits[i]);
      }
    }
  }

  /** Each listed product carries its current columns, appears once, and
      the listing follows the scan order. */
  lemma ListingOrdered(products: map<ProductId, Product>, scan: seq<ProductId>, c: Criterion)
    requires Enumerates(scan, products)
    ensures var vs := Listing(products, scan, c);
      && (forall i :: 0 <= i < |vs| ==> vs[i].id in products && vs[i] == View(vs[i].id, products[vs[i].id]))
      && (forall i, j :: 0 <= i < j < |vs| ==> vs[i].id != vs[j].id)
      && (forall i, j :: 0 <= i < j < |vs| ==> Before(scan, vs[i].id, vs[j].id))
  {
    var hits := MatchPositions(products, scan, c, 0);
    var vs := Listing(products, scan, c);
    ListingAt(products, scan, c);
    forall i, j | 0 <= i < j < |vs|
      ensures vs[i].id != vs[j].id && Before(scan, vs[i].id, vs[j].id)
    {
      assert hits[i] < hits[j];
    }
  }

  /** The store after logging `ids` as the ranked answer to `query`. */
  function Record(s: Store, user: UserId, query: string, ids: seq<ProductId>): (t: Store)
    ensures |t.searchLog| == |s.searchLog| + |ids| && |t.searchResults| == |s.searchResults| + |ids|
    ensures t.searchLog[..|s.searchLog|] == s.searchLog && t.searchResults[..|s.searchResults|] == s.searchResults
    ensures forall i :: |s.searchLog| <= i < |t.searchLog| ==> t.searchLog[i] == SearchLogEntry(user, query)
    ensures forall i :: 0 <= i < |ids| ==>
              t.searchResults[|s.searchResults| + i] == SearchResultEntry(|s.searchLog| + i, ids[i], i + 1)
    ensures t.users == s.users && t.sellers == s.sellers && t.products == s.products && t.buyLog == s.buyLog
  {
    var (log, results) := AppendRanked(s.searchLog, s.searchResults, user, query, ids, 1);
    s.(searchLog := log, searchResults := results)
  }

  /** A successful search: the store with its new log rows, and every match. */
  datatype Found = Found(store: Store, products: seq<ProductView>)

  /** The query text as searchlog's VARCHAR(255) column holds it: cut to
      255 characters, which the engine does only when the cut part is
      blank. */
  function LoggedQuery(c: Criterion): string {
    var q := QueryText(c);
    q[..Min(|q|, QueryWidth)]
  }

  /** search_sex, search_category and search_name. The query text is
      stored into searchlog's VARCHAR(255) and the user checked against its
      REFERENCES constraint only when there is a row to log; each row is
      committed on its own, but a fault can only arise on the first one,
      so a failing search logs nothing. */
  function Search(s: Store, scan: seq<ProductId>, c: Criterion, topK: int, user: UserId): (r: Result<Found>)
    requires Enumerates(scan, s.products)
    requires Spliceable(c)
  {
    var listed := Listing(s.products, scan, c);
    if listed == [] then Failure(NotFound)
    else
      var shown := SliceTo(listed, topK);
      if shown == [] then Success(Found(s, listed))
      else match StoreVarchar(QueryText(c), QueryWidth)
        case None => Failure(DbError(ValueTooLong))
        case Some(q) =>
          if user !in s.users then Failure(DbError(ForeignKeyViolation))
          else Success(Found(Record(s, user, q, Ids(shown)), listed))
  }

  /** `x` comes before `y` in the scan. */
  ghost predicate Before(scan: seq<ProductId>, x: ProductId, y: ProductId) {
    exists a, b :: 0 <= a < b < |scan| && scan[a] == x && scan[b] == y
  }

  /** NotFound is raised exactly when no product passes the filter. */
  lemma SearchNotFoundIff(s: Store, scan: seq<ProductId>, c: Criterion, topK: int, user: UserId)
    requires Enumerates(scan, s.products)
    requires Spliceable(c)
    ensures Search(s, scan, c, topK, user) == Failure(NotFound)
        <==> forall id :: id in s.products ==> !Matches(c, s.products[id])
  {
    ListingComplete(s.products, scan, c);
    ListingOrdered(s.products, scan, c);
    var vs := Listing(s.products, scan, c);
    if vs != [] {
      assert Ids(vs)[0] in Ids(vs);
    }
  }

  /** When a search succeeds, it lists every product that passes the filter
      and no other, each once, with its current columns, in scan order. */
  lemma SearchListsExactlyMatches(s: Store, scan: seq<ProductId>, c: Criterion, topK: int, user: UserId)
    requires Enumerates(scan, s.products)
    requires Spliceable(c)
    requires Search(s, scan, c, topK, user).Success?
    ensures var vs := Search(s, scan, c, topK, user).value.products;
      && (forall id :: id in s.products ==> (id in Ids(vs) <==> Matches(c, s.products[id])))
      && (forall i :: 0 <= i < |vs| ==> vs[i].id in s.products && vs[i] == View(vs[i].id, s.products[vs[i].id]))
      && (forall i, j :: 0 <= i < j < |vs| ==> vs[i].id != vs[j].id)
      && (forall i, j :: 0 <= i < j < |vs| ==> Before(scan, vs[i].id, vs[j].id))
  {
    ListingComplete(s.products, scan, c);
    ListingOrdered(s.products, scan, c);
  }

  /** The audit trail of a successful search: one searchlog row carrying the
      user and the query, and one searchresult row, per logged product; the
      logged products are the first `topK` listed ones (Python slicing, so a
      negative `topK` drops that many from the end), ranked 1, 2, ... in list
      order, each pointing at its own searchlog row. Users, sellers, products
      and the buy log are untouched. */
  lemma SearchLogsRanking(s: Store, scan: seq<ProductId>, c: Criterion, topK: int, user: UserId)
    requires Enumerates(scan, s.products)
    requires Spliceable(c)
    requires Search(s, scan, c, topK, user).Success?
    ensures var f := Search(s, scan, c, topK, user).value;
      var vs := f.products;
      var n := if topK >= 0 then Min(topK, |vs|) else Max(|vs| + topK, 0);
      var t := f.store;
      && (n > 0 ==> forall i :: QueryWidth <= i < |QueryText(c)| ==> QueryText(c)[i] == ' ')
      && |t.searchLog| == |s.searchLog| + n
      && |t.searchResults| == |s.searchResults| + n
      && t.searchLog[..|s.searchLog|] == s.searchLog
      && t.searchResults[..|s.searchResults|] == s.searchResults
      && (forall i :: |s.searchLog| <= i < |t.searchLog| ==> t.searchLog[i] == SearchLogEntry(user, LoggedQuery(c)))
      && (forall i :: 0 <= i < n ==>
            t.searchResults[|s.searchResults| + i] == SearchResultEntry(|s.searchLog| + i, vs[i].id, i + 1))
      && t.users == s.users && t.sellers == s.sellers && t.products == s.products && t.buyLog == s.buyLog
  {
    var listed := Listing(s.products, scan, c);
    var shown := SliceTo(listed, topK);
    var f := Search(s, scan, c, topK, user).value;
    assert f.products == listed;
    if shown == [] {
      assert f.store == s;
    } else {
      assert StoreVarchar(QueryText(c), QueryWidth).value == LoggedQuery(c);
      assert f.store == Record(s, user, LoggedQuery(c), Ids(shown));
      forall i | 0 <= i < |shown|
        ensures Ids(shown)[i] == listed[i].id
      {
        assert shown[i] == listed[..|shown|][i];
      }
    }
  }

  /** A search that finds something fails only when it has a row to log and
      the engine refuses it: the query text overflows searchlog's column
      with something other than blanks, or the user is not in the users
      table. */
  lemma SearchFaults(s: Store, scan: seq<ProductId>, c: Criterion, topK: int, user: UserId)
    requires Enumerates(scan, s.products)
    requires Spliceable(c)
    ensures var r := Search(s, scan, c, topK, user);
      r.Failure? && r.error != NotFound ==>
        && SliceTo(Listing(s.products, scan, c), topK) != []
        && ((r.error == DbError(ValueTooLong)
             && exists i :: QueryWidth <= i < |QueryText(c)| && QueryText(c)[i] != ' ')
            || (r.error == DbError(ForeignKeyViolation) && user !in s.users))
  {
  }

  /** Logging a ranking for a known user, with a query that fits its
      column, about known products, keeps every constraint of the schema. */
  lemma RecordPreservesValid(s: Store, user: UserId, query: string, ids: seq<ProductId>)
    requires Valid(s)
    requires user in s.users && |query| <= QueryWidth
    requires forall i :: 0 <= i < |ids| ==> ids[i] in s.products
    ensures Valid(Record(s, user, query, ids))
  {
    var t := Record(s, user, query, ids);
    forall i | 0 <= i < |t.searchLog|
      ensures t.searchLog[i].user in t.users && |t.searchLog[i].query| <= QueryWidth
    {
      if i < |s.searchLog| {
        assert t.searchLog[i] == t.searchLog[..|s.searchLog|][i];
      }
    }
    forall i | 0 <= i < |t.searchResults|
      ensures t.searchResults[i].log < |t.searchLog| && t.searchResults[i].product in t.products
    {
      if i < |s.searchResults| {
        assert t.searchResults[i] == t.searchResults[..|s.searchResults|][i];
      } else {
        var k := i - |s.searchResults|;
        assert t.searchResults[|s.searchResults| + k] == SearchResultEntry(|s.searchLog| + k, ids[k], k + 1);
      }
    }
  }

  /** Searching keeps every constraint of the schema. */
  lemma SearchPreservesValid(s: Store, scan: seq<ProductId>, c: Criterion, topK: int, user: UserId)
    requires Valid(s)
    requires Enumerates(scan, s.products)
    requires Spliceable(c)
    requires Search(s, scan, c, topK, user).Success?
    ensures Valid(Search(s, scan, c, topK, user).value.store)
  {
    var listed := Listing(s.products, scan, c);
    var shown := SliceTo(listed, topK);
    if shown != [] {
      ListingOrdered(s.products, scan, c);
      forall i | 0 <= i < |shown|
        ensures Ids(shown)[i] in s.products
      {
        assert shown[i] == listed[..|shown|][i];
      }
      RecordPreservesValid(s, user, StoreVarchar(QueryText(c), QueryWidth).value, Ids(shown));
    }
  }

  /** For a search word without LIKE's special characters, the name search
      finds exactly the products whose name contains the word. */
  lemma NameSearchIsSubstring(name: string, p: Product)
    requires SqlLike.Plain(name)
    ensures Matches(ByName(name), p) <==> SqlLike.Contains(p.name, name)
  {
    SqlLike.ContainsPattern(p.name, name);
  }
}

=== FILE: session.dfy ===
/** A session as the front end drives it: one backend call after another
    against the same store. A call that raises is reported and leaves the
    store as it was; the next call sees the store the last success left. */
module Session {
  import opened Catalog
  import Ledger
  import Purchase
  import Accounts
  import Search
  import Inventory

  /** The backend calls the front end makes on a user's or a seller's behalf. */
  datatype Command =
    | Buy(user: UserId, product: ProductId, quantity: int)
    | Charge(user: UserId, amount: int)
    | Find(scan: seq<ProductId>, criterion: Search.Criterion, topK: int, user: UserId)
    | Update(product: ProductId, assignment: Inventory.Assignment, seller: SellerId)
    | Delete(product: ProductId, seller: SellerId)

  /** The store after a call: the new store on success, the old one on failure. */
  function Keep(s: Store, r: Result<Store>): Store {
    match r
    case Success(t) => t
    case Failure(_) => s
  }

  /** A search's scan lists the products of the store it runs against. */
  predicate Admissible(s: Store, cmd: Command) {
    cmd.Find? ==> Search.Enumerates(cmd.scan, s.products) && Search.Spliceable(cmd.criterion)
  }

  /** One call as the front end makes it: the typed purchase quantity goes
      to the backend unchecked, the charge amount through My Page's bound. */
  function Step(s: Store, cmd: Command): Store
    requires Admissible(s, cmd)
  {
    match cmd
    case Buy(u, p, q) => Keep(s, Purchase.Purchase(s, u, p, q))
    case Charge(u, a) => Keep(s, Accounts.ChargeFromMyPage(s, u, a))
    case Find(scan, c, k, u) =>
      (match Search.Search(s, scan, c, k, u)
       case Success(f) => f.store
       case Failure(_) => s)
    case Update(p, a, x) => Keep(s, Inventory.UpdateProduct(s, p, a, x))
    case Delete(p, x) => Keep(s, Inventory.DeleteProduct(s, p, x))
  }

  /** Every call keeps every constraint of the schema. */
  lemma StepPreservesValid(s: Store, cmd: Command)
    requires Valid(s)
    requires Admissible(s, cmd)
    ensures Valid(Step(s, cmd))
  {
    match cmd
    case Buy(u, p, q) =>
      if Purchase.Purchase(s, u, p, q).Success? {
        Purchase.PurchasePreservesValid(s, u, p, q);
      }
    case Charge(u, a) =>
      if Accounts.ChargeFromMyPage(s, u, a).Success? {
        Accounts.ChargePreservesValid(s, u, a);
      }
    case Find(scan, c, k, u) =>
      if Search.Search(s, scan, c, k, u).Success? {
        Search.SearchPreservesValid(s, scan, c, k, u);
      }
    case Update(p, a, x) =>
      if Inventory.UpdateProduct(s, p, a, x).Success? {
        Inventory.UpdatePreservesValid(s, p, a, x);
      }
    case Delete(p, x) =>
      if Inventory.DeleteProduct(s, p, x).Success? {
        Inventory.DeletePreservesValid(s, p, x);
      }
  }

  /** One purchase request from the search screen. */
  datatype Order = Order(user: UserId, product: ProductId, quantity: int)

  /** One order placed: through the purchase as the backend performs it,
      or, when `checked`, through the corrected purchase that refuses a
      quantity below one. A refused order leaves the store as it was. */
  function Place(s: Store, o: Order, checked: bool): Store {
    Keep(s,
      if checked then Purchase.PurchaseChecked(s, o.user, o.product, o.quantity)
      else Purchase.Purchase(s, o.user, o.product, o.quantity))
  }

  /** A run of purchases, one order after another, failures skipped. */
  function RunPurchases(s: Store, orders: seq<Order>, checked: bool): Store
    decreases |orders|
  {
    if orders == [] then s
    else RunPurchases(Place(s, orders[0], checked), orders[1..], checked)
  }

  /** The units of `product` that the buy-log rows record. */
  function QuantityBought(log: seq<BuyLogEntry>, product: ProductId): int
    decreases |log|
  {
    if log == [] then 0
    else (if log[0].product == product then log[0].quantity else 0) + QuantityBought(log[1..], product)
  }

  /** A successful placement is a successful purchase as written. */
  lemma PlacedIsPurchase(s: Store, o: Order, checked: bool)
    ensures var r := Purchase.Purchase(s, o.user, o.product, o.quantity);
      Place(s, o, checked) == s || (r.Success? && Place(s, o, checked) == r.value)
  {
    if checked {
      Purchase.PurchaseCheckedIff(s, o.user, o.product, o.quantity);
    }
  }

  /** A run of purchases, checked or not, only appends to the buy log,
      never adds or removes a product, and for each product the stock it
      loses is exactly the quantity the appended buy-log rows record for
      it. With unchecked quantities that loss may be negative. */
  lemma {:induction false} StockLedger(s: Store, orders: seq<Order>, checked: bool, product: ProductId)
    requires product in s.products
    ensures var t := RunPurchases(s, orders, checked);
      && |t.buyLog| >= |s.buyLog|
      && t.buyLog[..|s.buyLog|] == s.buyLog
      && t.products.Keys == s.products.Keys
      && s.products[product].stock - t.products[product].stock
         == QuantityBought(t.buyLog[|s.buyLog|..], product)
    decreases |orders|
  {
    if orders != [] {
      var o := orders[0];
      var r := Purchase.Purchase(s, o.user, o.product, o.quantity);
      var s1 := Place(s, o, checked);
      PlacedIsPurchase(s, o, checked);
      if s1 != s {
        Purchase.PurchaseBookkeeping(s, o.user, o.product, o.quantity);
      }
      assert s1.products.Keys == s.products.Keys;
      StockLedger(s1, orders[1..], checked, product);
      var t := RunPurchases(s, orders, checked);
      assert t == RunPurchases(s1, orders[1..], checked);
      assert t.buyLog[..|s1.buyLog|][..|s.buyLog|] == t.buyLog[..|s.buyLog|];
      if s1 != s {
        var e := BuyLogEntry(o.user, o.product, o.quantity);
        assert s1.buyLog == s.buyLog + [e];
        var tail := t.buyLog[|s.buyLog|..];
        assert tail[0] == e;
        assert tail[1..] == t.buyLog[|s1.buyLog|..];
      }
    }
  }

  /** No run of purchases, checked or not, drives a stock below zero: the
      stock check precedes the decrement whatever the quantity's sign. */
  lemma {:induction false} StockStaysNonNegative(s: Store, orders: seq<Order>, checked: bool)
    requires forall id :: id in s.products ==> s.products[id].stock >= 0
    ensures var t := RunPurchases(s, orders, checked);
      forall id :: id in t.products ==> t.products[id].stock >= 0
    decreases |orders|
  {
    if orders != [] {
      var o := orders[0];
      var s1 := Place(s, o, checked);
      PlacedIsPurchase(s, o, checked);
      if s1 != s {
        Purchase.PurchaseBookkeeping(s, o.user, o.product, o.quantity);
        Purchase.PurchaseLeavesNoNegatives(s, o.user, o.product, o.quantity);
        assert s1 == Purchase.Purchase(s, o.user, o.product, o.quantity).value;
      }
      assert forall id :: id in s1.products ==> s1.products[id].stock >= 0;
      StockStaysNonNegative(s1, orders[1..], checked);
      var t := RunPurchases(s, orders, checked);
      assert t == RunPurchases(s1, orders[1..], checked);
      assert forall id :: id in t.products ==> t.products[id].stock >= 0;
    }
  }

  /** One checked order, kept or refused, appends at most rows with a
      positive quantity and raises no product's stock. */
  lemma OrderNeverRises(s: Store, o: Order)
    ensures var s1 := Place(s, o, true);
      && |s1.buyLog| >= |s.buyLog|
      && s1.buyLog[..|s.buyLog|] == s.buyLog
      && (forall id :: id in s.products ==> id in s1.products && s1.products[id].stock <= s.products[id].stock)
      && (forall i :: |s.buyLog| <= i < |s1.buyLog| ==> s1.buyLog[i].quantity > 0)
  {
    if Purchase.PurchaseChecked(s, o.user, o.product, o.quantity).Success? {
      Purchase.PurchaseBookkeeping(s, o.user, o.product, o.quantity);
      Purchase.CheckedPurchaseMovesGoodsForward(s, o.user, o.product, o.quantity);
    }
  }

  /** With quantities checked, purchases never raise a product's stock,
      and every buy-log row they append records a positive quantity. */
  lemma {:induction false} StockNeverRises(s: Store, orders: seq<Order>)
    ensures var t := RunPurchases(s, orders, true);
      && |t.buyLog| >= |s.buyLog|
      && t.buyLog[..|s.buyLog|] == s.buyLog
      && (forall id :: id in s.products ==> id in t.products && t.products[id].stock <= s.products[id].stock)
      && (forall i :: |s.buyLog| <= i < |t.buyLog| ==> t.buyLog[i].quantity > 0)
    decreases |orders|
  {
    if orders != [] {
      var o := orders[0];
      var s1 := Place(s, o, true);
      OrderNeverRises(s, o);
      StockNeverRises(s1, orders[1..]);
      var t := RunPurchases(s, orders, true);
      assert t == RunPurchases(s1, orders[1..], true);
      assert t.buyLog[..|s.buyLog|] == t.buyLog[..|s1.buyLog|][..|s.buyLog|];
      forall i | |s.buyLog| <= i < |t.buyLog|
        ensures t.buyLog[i].quantity > 0
      {
        if i < |s1.buyLog| {
          assert t.buyLog[i] == t.buyLog[..|s1.buyLog|][i];
        }
      }
    }
  }

  /** Without the check, one order typed as -3 on the search screen raises
      the coat's stock from 5 to 8 and records -3 bought. */
  lemma UncheckedRunRaisesStock()
    ensures var t := RunPurchases(Purchase.SmallShop(), [Order(1, 3, -3)], false);
      && t.products[3].stock == 8
      && QuantityBought(t.buyLog, 3) == -3
  {
    Purchase.NegativeQuantityExample();
    StockLedger(Purchase.SmallShop(), [Order(1, 3, -3)], false, 3);
  }

  /** A run of purchases, checked or not, keeps the schema's constraints
      and moves money only between accounts: the total held by users and
      sellers is unchanged. */
  lemma {:induction false} PurchasesConserveMoney(s: Store, orders: seq<Order>, checked: bool)
    requires Valid(s)
    ensures Valid(RunPurchases(s, orders, checked))
    ensures Ledger.TotalMoney(RunPurchases(s, orders, checked)) == Ledger.TotalMoney(s)
    decreases |orders|
  {
    if orders != [] {
      var o := orders[0];
      PlacedIsPurchase(s, o, checked);
      if Place(s, o, checked) != s {
        Purchase.PurchasePreservesValid(s, o.user, o.product, o.quantity);
        Purchase.PurchaseConservesMoney(s, o.user, o.product, o.quantity);
      }
      PurchasesConserveMoney(Place(s, o, checked), orders[1..], checked);
    }
  }
}

=== FILE: sql_like.dfy ===
/** The SQL LIKE operator as the name search uses it: case-sensitive, with
    '%' matching any run of characters, '_' matching one character and a
    backslash making the next pattern character literal. */
module SqlLike {

  /** Does text `s` match LIKE pattern `p`? A backslash that ends the pattern
      is read as a literal character; the patterns the name search builds
      always end in '%', so they never end in a lone backslash. */
  function Like(s: string, p: string): bool
    decreases |p|, |s|
  {
    if p == [] then s == []
    else if p[0] == '%' then Like(s, p[1..]) || (s != [] && Like(s[1..], p))
    else if p[0] == '\\' && |p| >= 2 then s != [] && s[0] == p[1] && Like(s[1..], p[2..])
    else if p[0] == '_' then s != [] && Like(s[1..], p[1..])
    else s != [] && s[0] == p[0] && Like(s[1..], p[1..])
  }

  /** A search word with none of LIKE's special characters. */
  predicate Plain(w: string) {
    forall i :: 0 <= i < |w| ==> w[i] != '%' && w[i] != '_' && w[i] != '\\'
  }

  /** `w` occurs somewhere in `s` as a contiguous piece. */
  predicate Contains(s: string, w: string) {
    exists k :: 0 <= k <= |s| && w <= s[k..]
  }

  /** The pattern "%" matches every text. */
  lemma {:induction false} PercentMatchesAll(s: string)
    ensures Like(s, "%")
  {
    if s != [] {
      PercentMatchesAll(s[1..]);
    }
  }

  /** For a plain word, `w%` matches exactly the texts that start with `w`. */
  lemma {:induction false} PlainPrefix(s: string, w: string)
    requires Plain(w)
    ensures Like(s, w + "%") <==> w <= s
  {
    if w == [] {
      assert w + "%" == "%";
      PercentMatchesAll(s);
    } else {
      var p := w + "%";
      assert p[0] == w[0] && p[1..] == w[1..] + "%";
      assert Plain(w[1..]) by {
        forall i | 0 <= i < |w[1..]|
          ensures w[1..][i] != '%' && w[1..][i] != '_' && w[1..][i] != '\\'
        {
          assert w[1..][i] == w[i + 1];
        }
      }
      if s != [] {
        PlainPrefix(s[1..], w[1..]);
        assert w <= s <==> (s[0] == w[0] && w[1..] <= s[1..]);
      }
    }
  }

  /** For a plain word, the name search's pattern `%w%` matches exactly the
      texts that contain `w`. */
  lemma {:induction false} ContainsPattern(s: string, w: string)
    requires Plain(w)
    ensures Like(s, "%" + w + "%") <==> Contains(s, w)
  {
    var p := "%" + w + "%";
    assert p[0] == '%' && p[1..] == w + "%";
    PlainPrefix(s, w);
    if s == [] {
      assert Contains(s, w) <==> w <= s[0..];
    } else {
      ContainsPattern(s[1..], w);
      if Contains(s[1..], w) {
        var k :| 0 <= k <= |s[1..]| && w <= s[1..][k..];
        assert s[1..][k..] == s[k + 1..];
      }
      if Contains(s, w) && !(w <= s) {
        var k :| 0 <= k <= |s| && w <= s[k..];
        assert k != 0;
        assert s[k..] == s[1..][k - 1..];
      }
    }
  }

  /** An underscore in the search word is a wildcard: "a_c" finds "abc",
      which does not contain the text "a_c". */
  lemma UnderscoreIsWildcard()
    ensures Like("abc", "%a_c%")
    ensures !Contains("abc", "a_c")
  {
    assert Like("abc", "%a_c%") by {
      assert "%a_c%"[1..] == "a_c%";
      assert "abc"[1..] == "bc" && "a_c%"[1..] == "_c%";
      assert "bc"[1..] == "c" && "_c%"[1..] == "c%";
      assert "c"[1..] == "" && "c%"[1..] == "%";
      PercentMatchesAll("");
    }
    forall k | 0 <= k <= |"abc"|
      ensures !("a_c" <= "abc"[k..])
    {
      if k == 0 {
        assert "a_c"[1] != "abc"[1];
      }
    }
  }
}
